=== FILE: README.md ===
# Snake game engine — a Dafny model

This project models the game logic of a Snake game for a small microcontroller with
a 128×64 monochrome display. Two variants exist, and both are modelled:

- **`main_enhanced.c`** (modules `Food`, `Scoring`, `EnhancedGame`, `EnhancedProperties`):
  - a menu / playing / paused / game-over mode machine driven by key messages;
  - five food variants (Normal, Golden, SpeedUp, Slow, Super) chosen by weight, four of which expire;
  - score, level and high score;
  - a tick delay derived from the level and the speed-boost and slow effects.
- **`main.c`** (modules `ClassicGame`, `ClassicProperties`): the same tick with no modes
  and no scoring. The snake grows by one per food, and the `R` key is stored as if it were a direction.

Shared pieces are in `Grid`:
- the screen and grid constants;
- the food position drawn from two `rand()` values;
- the self-collision scan over body cells 1..length-1;
- the descending body shift.

`UInt32` makes the `uint32_t` wrap-around explicit, `Ticks` holds the scheduler tick
settings, and `Options` holds the optional key.

The firmware runs three FreeRTOS tasks that share one record under a mutex. The model
replaces them with one sequential step function:
- `EnhancedGame.Step` and `ClassicGame.Step` each run one iteration of the simulation
  task's loop: handle at most one key message, run one tick and, in the enhanced variant,
  compute the next delay;
- `Run` folds a sequence of such iterations;
- `rand()` results are parameters (`Draw`, `Roll`), and so is the scheduler tick count (`now`).

The body is modelled as the whole 256-cell static buffer (`cells`) plus `length`, not
just the live prefix. This matters because cells past `length` are read when a Super food
grows the snake by two (see below).

Design choices:
- **Effect order.** The speed boost and the slow effect combine as the code does: halve, then double.
- **Food on the body.** Food may spawn on the snake's body. As in the code, nothing rejects that.

## Behaviour of the code as written

- **`gameOver` is never cleared after start-up.** Only the snake task's initialisation
  clears it (main_enhanced.c:367). After a game over, R leads to the menu and a second R
  leads to Playing. The tick guard (main_enhanced.c:435) still sees `gameOver`, so the
  game never moves again (`RestartAfterGameOverFreezes`, `GameOverAbsorbing`).
- **R during play returns to the menu without a reset.** A second R resumes the same game.
- **Pause toggles.** Pause in Paused resumes play, so it is not a no-op (`PauseRoundTrip`).
- **R in the simpler variant ends the game on the second tick, not the first, when no
  other key arrives before that tick.** `R` is stored as the direction, so the head stays
  still. On the first such tick, cell 1 is still the previous head position, so no collision
  happens. The shift then copies the head onto cell 1, and a second tick with R still stored
  collides (`RKeyStallsHead`, `RKeyEndsGameInTwoTicks`).
- **A key after R escapes the stall, and it may be any key.** `R` is no movement direction, so
  the reverse filter refuses nothing while it is stored. A turn in the next iteration moves the
  head clear of the body and the game goes on (`RKeyThenTurnSurvives`). The exact reverse of the
  direction before R is accepted too, and it drives the head into the body (`RKeyThenReverseEndsGame`).
- **Super growth exposes an unused buffer cell.** The new last cell receives buffer
  cell `length`, which the snake task never wrote, so it holds (0, 0). For one tick the tail sits
  in the top-left corner (`SuperGrowthExposesUnusedCell`).
- **Golden food at length 5, level 1** earns (10 + 2·5 + 1·2)·2 = 44 points (`GoldenScenario`).
- **The game has no Stats mode, games-played counter or sound queue.** The code has none of them.
- **The simpler variant leaves its loop at game over.** The snake task breaks out of its loop
  as soon as an iteration ends the game (main.c:231-233), so `ClassicGame.Run` stops there and
  the inputs that follow are never consumed (`ClassicProperties.GameOverAbsorbing`).

## Model

| member | source | states |
|---|---|---|
| Grid.SpawnPosition | main_enhanced.c:117-118 | the food position is a multiple of BLOCK_SIZE inside [0,128)×[0,64) |
| Grid.SpawnCoversGrid | main_enhanced.c:117-118 | every grid-aligned on-screen cell is a possible food position |
| Grid.HitsBody | main_enhanced.c:456-464 | the self-collision scan fires exactly when the candidate head equals some body cell at index 1..length-1 |
| Grid.ShiftBody | main_enhanced.c:475-482 | the descending copy loop leaves the old cell i-1 at index i for 1 ≤ i < length, the new head at index 0, and the rest of the buffer untouched |
| Grid.ShiftedKeepsBuffer | main_enhanced.c:475-482 | shifting onto an on-grid head keeps every buffer cell on the grid and leaves cells past the new length as they were |
| Food.KindOf | main_enhanced.c:121-137 | the variant is Normal, Golden, SpeedUp, Slow or Super exactly when `rand()%100` lies below 60, in [60,75), [75,85), [85,95) or at or above 95 |
| Food.SpawnFood | main_enhanced.c:115-140 | a spawned item is on the grid at the position of its column and row rolls, is stamped with the current tick, and has the variant of its roll with that variant's lifetime: Normal 0 (never expires), Golden 8000, SpeedUp 6000, Slow 5000 and Super 10000 ms |
| Food.VariantWeights | main_enhanced.c:121-137 | of the 100 roll values exactly 60, 15, 10, 10 and 5 select Normal, Golden, SpeedUp, Slow and Super |
| Food.ExpiryTiming | main_enhanced.c:144-151 | a spawned item expires exactly when k ≥ lifetime ms have passed since its spawn tick, across tick-counter wrap, and Normal food never does |
| Food.Refresh | main_enhanced.c:436-439 | after the refresh the food on the field is not expired at the current tick; expired food is replaced by a fresh spawn and live food is kept; food on the grid stays on the grid, and a lifetime that matches the variant still matches |
| Scoring.CalculateScore | main_enhanced.c:155-158 | for a snake within capacity the per-food score is 10 + 5 per cell beyond 3 + 2 per level, with no uint32 overflow |
| Scoring.ScoreMonotone | main_enhanced.c:155-158 | a longer snake or a higher level earns strictly more per food |
| Scoring.CalculateLevel | main_enhanced.c:162-164 | the level is at least 1 and is the unique L with (L-1)·100 ≤ score < L·100 |
| Scoring.LevelMonotone | main_enhanced.c:162-164 | a larger score never gives a lower level |
| Scoring.BaseDelay | main_enhanced.c:493-494 | the base delay is at least 50; for levels 1..10 it is 200-(level-1)·15, and for levels 11..14 it is 50 |
| Scoring.Level15SleepTicks | main_enhanced.c:493-509 | at level 15 the base delay is 4294967286 ms and the sleep `pdMS_TO_TICKS` makes of it is 4294957 ticks, more than an hour |
| Ticks.MsToTicksOneToOne | main_enhanced.c:509 | the millisecond-to-tick conversion is the identity exactly for delays up to 4294967 ms, above which its 32-bit product wraps |
| Scoring.BaseDelayWrapsFromLevel15 | main_enhanced.c:493-494 | from level 15 the uint32 subtraction wraps and the base delay exceeds three billion ms |
| Scoring.IntendedBaseDelay | main_enhanced.c:493-494 | the corrected curve stays within [50,200] and reaches 50 exactly from level 11 |
| Scoring.IntendedBaseDelayProperties | main_enhanced.c:493-494 | the corrected curve never slows as the level rises, and it agrees with the code through level 14 |
| Scoring.TickDelay | main_enhanced.c:488-507 | outside active play the delay is 100 ms; through level 14 an active delay lies in [25,400] ms; a running boost never makes the delay longer than the base delay, and through level 14 a running slow effect alone never makes it shorter |
| Scoring.TickDelayBounds | main_enhanced.c:493-506 | through level 14 an active game's delay lies in [25,400] ms |
| EnhancedGame.KeyOf | main_enhanced.c:240-248 | exactly the characters w, s, a, d, r and p produce a key message; all others are dropped |
| EnhancedGame.Candidate | main_enhanced.c:441-448 | a movement direction puts the candidate head one block away in that direction (up lowers y); any other key leaves it on the head |
| EnhancedGame.Init | main_enhanced.c:364-386 | start-up gives body (6,32),(4,32),(2,32) heading right, Menu mode, score 0, high score 0, level 1 and no effects |
| EnhancedGame.HandleKey | main_enhanced.c:391-431 | the mode table (Menu+R→Playing, Playing+Pause→Paused, Playing+R→Menu, Paused+Pause→Playing, Paused+R→Menu, GameOver+R→Menu); reversals are refused; every other pair is a no-op, and nothing but mode, direction and start tick changes |
| EnhancedGame.Multiplier | main_enhanced.c:179-222 | Golden food scores double, Super food triple, and Normal, SpeedUp and Slow food single |
| EnhancedGame.FoodGain | main_enhanced.c:179-222 | within capacity a food earns its multiplier times calculateScore, between 10 and three times the largest per-food score |
| EnhancedGame.Grown | main_enhanced.c:183-221 | eating adds one cell, or two for Super, capped at 256; a snake below 256 always grows |
| EnhancedGame.ProcessFoodEffect | main_enhanced.c:176-230 | the level matches the new score; the high score is max(old high, new score) and changes only when beaten; length grows per `Grown`; only SpeedUp and Slow set their end ticks, at now+5000 and now+3000; nothing else changes |
| EnhancedGame.Tick | main_enhanced.c:433-486 | outside active play nothing changes; otherwise expired food is replaced first; game over then happens exactly on a wall or body hit, leaving the body unchanged and the refreshed food in place; if not over, the body shifts onto the new head and the snake eats exactly when the head reaches the refreshed food |
| EnhancedGame.Move | main_enhanced.c:466-483 | the non-colliding step eats exactly when the head reaches the food, then shifts the body onto the head |
| EnhancedGame.Step | main_enhanced.c:389-510 | one loop iteration keeps the buffer shape and never lowers the high score; the delay is computed from the state after the tick; after game over it changes no body, food, length or score, and it sleeps 100 ms |
| EnhancedGame.Run | main_enhanced.c:389-510 | any number of iterations keeps the buffer shape and never lowers the high score |
| EnhancedProperties.KeyMapRoundTrip | main_enhanced.c:240-248 | the character map is injective, and each key's character maps back to it |
| EnhancedProperties.ReverseSymmetric | main_enhanced.c:407-410 | reversal is symmetric and only relates two distinct movement directions |
| EnhancedProperties.InitValid | main_enhanced.c:364-386 | the initial state satisfies the reachable-state invariant |
| EnhancedProperties.HandleKeyPreservesValid | main_enhanced.c:393-428 | key handling keeps the invariant; the current direction only ever holds a movement direction |
| EnhancedProperties.ProcessFoodEffectPreservesValid | main_enhanced.c:176-230 | after a food effect the level matches the score, high ≥ score, 3 ≤ length ≤ 256, and the buffer, food, direction and mode are unchanged |
| EnhancedProperties.MovePreservesValid | main_enhanced.c:466-483 | a non-colliding move onto an on-grid head keeps the invariant |
| EnhancedProperties.TickPreservesValid | main_enhanced.c:433-486 | a tick keeps the invariant |
| EnhancedProperties.CollidingTickPreservesValid | main_enhanced.c:436-463 | a playing tick whose candidate head hits a wall or the body keeps the invariant |
| EnhancedProperties.MovingTickPreservesValid | main_enhanced.c:436-482 | a playing tick whose candidate head is free keeps the invariant |
| EnhancedProperties.StepPreservesValid | main_enhanced.c:389-510 | a loop iteration keeps the invariant |
| EnhancedProperties.RunPreservesValid | main_enhanced.c:389-510 | every reachable state keeps 3 ≤ length ≤ 256, food on the grid, level = calculateLevel(score), high ≥ score, and a movement direction |
| EnhancedProperties.GameOverAbsorbing | main_enhanced.c:433-435 | once over, no sequence of keys and ticks changes body, food, length or score, and `gameOver` stays set |
| EnhancedProperties.RestartAfterGameOverFreezes | main_enhanced.c:423-435 | GameOver, then R, R reaches Playing with `gameOver` still set; the tick is then a no-op and the loop sleeps 100 ms |
| EnhancedProperties.PauseRoundTrip | main_enhanced.c:401-420 | pause then resume restores the playing state exactly |
| EnhancedProperties.PausedIgnoresMoves | main_enhanced.c:415-421 | movement keys are ignored while paused |
| EnhancedProperties.ReversalRefused | main_enhanced.c:407-411 | heading up, a Down message is refused and the next move goes one block up |
| EnhancedProperties.RightWallEndsGame | main_enhanced.c:450-454 | moving right from the last column ends the game with the body unchanged |
| EnhancedProperties.ScoreNeverDecreases | main_enhanced.c:176-230 | away from the uint32 limit, an iteration never lowers the score, and growth comes with a strictly higher score |
| EnhancedProperties.TickNeverLowersScore | main_enhanced.c:433-486 | away from the uint32 limit, a tick never lowers the score, and a tick that grows the snake raises it |
| EnhancedProperties.GoldenScenario | main_enhanced.c:188-194 | a Golden food at length 5, level 1 earns 44 points and one cell |
| EnhancedProperties.LevelUpScenario | main_enhanced.c:226 | a food taking the score from 90 to 102 raises the level to 2 in the same tick, and with no speed or slow effect running the delay for level 2 is 185 ms |
| EnhancedProperties.SuperGrowthExposesUnusedCell | main_enhanced.c:214-221 | Super growth at length L ≤ 254 makes cell L the old tail and cell L+1 the never-written (0,0) |
| ClassicGame.KeyOf | main.c:97-103 | exactly w, s, a, d and r produce a key message |
| ClassicGame.SpawnFood | main.c:83-87 | food lies at multiples of BLOCK_SIZE with 0 ≤ x < 128 and 0 ≤ y < 64 |
| ClassicGame.Init | main.c:150-165 | start-up writes body (6,32),(4,32),(2,32) heading right, not over, and leaves the rest of the buffer as it was |
| ClassicGame.ApplyKey | main.c:170-177 | a key becomes the current direction exactly when it does not reverse it, R always does, and nothing but the direction changes |
| ClassicGame.Candidate | main.c:182-189 | a movement direction puts the candidate head one block away in that direction (up lowers y); R leaves it on the head |
| ClassicGame.Tick | main.c:180-228 | after game over nothing changes; otherwise game over happens exactly on a wall or body hit, leaving body and food unchanged; if not over, the body shifts onto the head and eating grows length by one below 256 and respawns the food |
| ClassicGame.Step | main.c:168-228 | one iteration keeps the buffer shape; after game over body, food and length stay unchanged |
| ClassicGame.Run | main.c:168-233 | iterations keep the buffer shape and never shorten the snake; from a state that is already over, no iteration runs |
| ClassicProperties.KeyMapRoundTrip | main.c:97-103 | the character map is injective, and each key's character maps back to it |
| ClassicProperties.KeyAcceptance | main.c:171-176 | a key becomes the direction exactly when it is not the reverse, and R is always accepted |
| ClassicProperties.InitValid | main.c:150-165 | the initial state is valid whatever the buffer held |
| ClassicProperties.TickPreservesValid | main.c:207-225 | a tick keeps 3 ≤ length ≤ 256, the body on the grid and the food on the grid |
| ClassicProperties.RunPreservesValid | main.c:168-228 | every reachable state keeps the invariant |
| ClassicProperties.GameOverAbsorbing | main.c:229-233 | the loop is left at game over: once a run of iterations ends the game, appending further keys and rolls leaves the final state unchanged |
| ClassicProperties.RightWallEndsGame | main.c:191-195 | moving right from the last column sets `gameOver` and leaves the body in place |
| ClassicProperties.RKeyStallsHead | main.c:183-205 | with R stored the candidate equals the head; a head already on cell 1 collides; a head on none of the cells 1..length-1 survives the tick and ends up on cell 1 |
| ClassicProperties.RKeyEndsGameInTwoTicks | main.c:171-205 | after an R key, two ticks with no other key between them end the game |
| ClassicProperties.RKeyThenTurnSurvives | main.c:171-228 | from start-up, wherever the food spawned, R then Up in the next iteration survives both ticks: the first stalls the head onto cell 1, the second moves it clear of the body |
| ClassicProperties.RKeyThenReverseEndsGame | main.c:171-205 | from start-up heading right, wherever the food spawned, R then Left is accepted because the filter refuses nothing after R, and the head lands on cell 2, ending the game |

## Findings

| source | as written | input that shows it | evidently intended | confidence | as-written member | corrected member |
|---|---|---|---|---|---|---|
| main_enhanced.c:493-494 | `200 - (level-1)*15` is evaluated in `uint32_t`, so from level 15 it wraps to a huge value that the floor of 50 never catches | level 15 (score 1400 or more): base delay 4294967286 ms; the task sleeps `pdMS_TO_TICKS` of it, 4294957 ticks (about 72 minutes at 1 kHz), so the game effectively stops | the fastest speed is a 50 ms delay for every level | high (not executed) | Scoring.Level15SleepTicks | main_enhanced.c:493-509 | at level 15 the base delay is 4294967286 ms and the sleep `pdMS_TO_TICKS` makes of it is 4294957 ticks, more than an hour |
| Ticks.MsToTicksOneToOne | main_enhanced.c:509 | the millisecond-to-tick conversion is the identity exactly for delays up to 4294967 ms, above which its 32-bit product wraps |
| Scoring.BaseDelayWrapsFromLevel15 | Scoring.IntendedBaseDelay |

`EnhancedGame.Step` keeps the as-written `BaseDelay`, because the delay does not feed
back into the game state. `Scoring.IntendedBaseDelayProperties` shows that the two
curves agree through level 14.

## Left out

- FreeRTOS plumbing is not modelled: task creation, the mutex, the key queue (length 5,
  drop when full), `vTaskDelay` and task suspend/resume. The model is one sequential step per loop iteration.
- The restart path of the simpler variant (`vRestart`, which waits for R and recreates the
  task) is not modelled. Task lifecycle is scheduler plumbing. `ClassicGame.Init` takes the
  old buffer, so it covers the re-initialisation such a restart performs.
- Rendering is not modelled: `vDrawTask`, `displayGameMenu`, and `updateGameTime` with the
  `gameTime` field it maintains. These are display I/O only.
- UART polling is not modelled; only the character-to-key maps are.
- `rand()` and `xTaskGetTickCount()` are parameters. One tick value `now` stands for every
  read of the tick count within an iteration; the source reads it several times, and the
  reads can differ by a tick.
- The FreeRTOS configuration header is not part of this model. A 1 kHz tick is assumed, and
  `pdMS_TO_TICKS` is taken to compute `ms * configTICK_RATE_HZ / 1000` in 32-bit tick arithmetic
  (`Ticks.MsToTicks`). It maps milliseconds to ticks one to one exactly for delays up to
  4294967 ms (`Ticks.MsToTicksOneToOne`). `Step` returns the delay in milliseconds; the task
  sleeps `MsToTicks` of it, which differs only for the wrapped level-15 delays (`Scoring.Level15SleepTicks`).
- The simpler variant's fixed 100 ms delay and its 2 s pause after game over are not
  modelled. They are plain sleeps.
- Hardware setup, `main`, the assert/stack/idle/timer hooks and `prvPrintString` are not
  modelled: they are hardware bring-up and halt loops. syscalls.c and isr_weak.c are not
  modelled either: they are C-runtime shims and weak interrupt aliases.
- Signed 32-bit overflow of C `int` coordinates and lengths is not modelled. Coordinates
  stay within one block of the screen and lengths within 256.
- EnhancedProperties.ScoreNeverDecreases: holds only while the score is at least three
  maximal food gains below 2^32. Closer to the limit the `uint32_t` sum wraps, and the model
  computes that wrap.
- Scoring.CalculateScore: the exact formula is stated only for lengths 3..256 and levels up
  to the largest reachable one. Outside that range the function computes the `uint32_t` wrap.

=== FILE: classic_game.dfy ===
/** The simpler variant of the game engine (main.c): no modes, no scoring, plain
    growth by one, and an `R` key that is stored as the current direction. */
module ClassicGame {

  import opened Options
  import opened Grid

  /** A key message. `R` is not a movement direction but is stored like one. */
  datatype Key = Up | Down | Left | Right | R

  /** The two `rand()` results one food spawn consumes: column, then row. */
  datatype Roll = Roll(rx: nat, ry: nat)

  /** The shared record with the snake task's current direction; `cells` is the whole
      fixed-capacity buffer, the body its first `length` cells, head at index 0. */
  datatype State = State(cells: seq<Point>, length: int, food: Point, gameOver: bool, dir: Key)

  /** The buffer shape every operation relies on: full capacity, a non-empty body. */
  predicate Shape(s: State) {
    |s.cells| == MaxSnakeLength && 1 <= s.length <= MaxSnakeLength
  }

  /** The invariant of every reachable state. */
  predicate Valid(s: State) {
    && |s.cells| == MaxSnakeLength
    && 3 <= s.length <= MaxSnakeLength
    && (forall i :: 0 <= i < s.length ==> OnGrid(s.cells[i]))
    && OnGrid(s.food)
  }

  /** The keyboard task's character map; every other character is dropped. */
  function KeyOf(c: char): (k: Option<Key>)
    ensures k.None? <==> c !in {'w', 's', 'a', 'd', 'r'}
  {
    match c
    case 'w' => Some(Up)
    case 's' => Some(Down)
    case 'a' => Some(Left)
    case 'd' => Some(Right)
    case 'r' => Some(R)
    case _ => None
  }

  /** The character that produces a key. */
  function CharOf(k: Key): char {
    match k
    case Up => 'w'
    case Down => 's'
    case Left => 'a'
    case Right => 'd'
    case R => 'r'
  }

  predicate IsReverse(cur: Key, k: Key) {
    || (cur == Up && k == Down)
    || (cur == Down && k == Up)
    || (cur == Left && k == Right)
    || (cur == Right && k == Left)
  }

  /** `spawnFood`: a grid-aligned position anywhere on the screen. */
  function SpawnFood(roll: Roll): (p: Point)
    ensures OnGrid(p)
    ensures p.x % BlockSize == 0 && 0 <= p.x < ScreenWidth
    ensures p.y % BlockSize == 0 && 0 <= p.y < ScreenHeight
  {
    SpawnPosition(roll.rx, roll.ry)
  }

  /** The task's initialisation block. It writes cells 0..2 of whatever the buffer
      holds (zeros at boot, the last game's body after a restart): length 3 heading
      right on the middle row, not over, with freshly spawned food. */
  function Init(buffer: seq<Point>, roll: Roll): (s: State)
    requires |buffer| == MaxSnakeLength
    ensures |s.cells| == MaxSnakeLength
    ensures s.cells[..3] == [Point(6, 32), Point(4, 32), Point(2, 32)]
    ensures s.cells[3..] == buffer[3..]
    ensures s.length == 3 && s.dir == Right && !s.gameOver && OnGrid(s.food)
  {
    var initialLength := 3;
    var row := (ScreenHeight / 2 / BlockSize) * BlockSize;
    State(
      seq(MaxSnakeLength, i requires 0 <= i < MaxSnakeLength =>
        if i < initialLength then Point((initialLength - i) * BlockSize, row) else buffer[i]),
      initialLength, SpawnFood(roll), false, Right)
  }

  /** A received key becomes the current direction unless it is the exact reverse;
      `R` is accepted from every direction. */
  function ApplyKey(s: State, k: Key): (r: State)
    ensures IsReverse(s.dir, k) ==> r == s
    ensures !IsReverse(s.dir, k) ==> r == s.(dir := k)
    ensures r.dir == k <==> !IsReverse(s.dir, k)
    ensures k == R ==> r.dir == R
    ensures r == s.(dir := r.dir)
  {
    if IsReverse(s.dir, k) then s else s.(dir := k)
  }

  /** The candidate head: one block along the direction; `R` leaves it in place. */
  function Candidate(head: Point, dir: Key): (p: Point)
    ensures dir != R ==> OneBlockApart(p, head)
    ensures dir == Up ==> p.y < head.y
    ensures dir == Down ==> p.y > head.y
    ensures dir == Left ==> p.x < head.x
    ensures dir == Right ==> p.x > head.x
    ensures dir == R ==> p == head
  {
    match dir
    case Up => Offset(head, 0, -BlockSize)
    case Down => Offset(head, 0, BlockSize)
    case Left => Offset(head, -BlockSize, 0)
    case Right => Offset(head, BlockSize, 0)
    case R => head
  }

  /** One tick while not over: a candidate head off the screen or on a body cell
      1..length-1 ends the game with body and food unchanged; otherwise reaching
      the food grows the snake by one (while below capacity) and respawns it, and the
      body shifts onto the new head. Once over, a tick changes nothing. */
  function Tick(s: State, roll: Roll): (r: State)
    requires Shape(s)
    ensures Shape(r) && r.dir == s.dir
    ensures s.gameOver ==> r == s
    ensures !s.gameOver ==>
      var head := Candidate(s.cells[0], s.dir);
      && (r.gameOver <==> !InBounds(head) || exists i :: 1 <= i < s.length && s.cells[i] == head)
      && (r.gameOver ==> r == s.(gameOver := true))
      && (!r.gameOver ==> r.cells[0] == head && r.length >= s.length)
      && (!r.gameOver ==> forall i :: 1 <= i < r.length ==> r.cells[i] == s.cells[i - 1])
      && (!r.gameOver ==> forall i :: r.length <= i < |r.cells| ==> r.cells[i] == s.cells[i])
      && (!r.gameOver && head != s.food ==> r.length == s.length && r.food == s.food)
      && (!r.gameOver && head == s.food ==>
            r.food == SpawnFood(roll) && r.length == (if s.length < MaxSnakeLength then s.length + 1 else s.length))
  {
    if s.gameOver then s
    else
      var head := Candidate(s.cells[0], s.dir);
      if !InBounds(head) || HitsBody(s.cells, s.length, head, 1) then s.(gameOver := true)
      else
        var s2 := if head == s.food
          then s.(length := if s.length < MaxSnakeLength then s.length + 1 else s.length, food := SpawnFood(roll))
          else s;
        s2.(cells := Shifted(s2.cells, s2.length, head))
  }

  /** One loop iteration: apply the received key (if any), then tick. */
  function Step(s: State, key: Option<Key>, roll: Roll): (r: State)
    requires Shape(s)
    ensures Shape(r)
    ensures s.gameOver ==> r.gameOver && r.cells == s.cells && r.food == s.food && r.length == s.length
  {
    var s1 := match key
      case None => s
      case Some(k) => ApplyKey(s, k);
    Tick(s1, roll)
  }

  /** The state after a sequence of loop iterations. The loop is left as soon as an
      iteration ends the game, so the remaining inputs are never consumed. */
  function Run(s: State, keys: seq<Option<Key>>, rolls: seq<Roll>): (r: State)
    requires Shape(s)
    requires |keys| == |rolls|
    decreases |keys|
    ensures Shape(r)
    ensures s.length <= r.length
    ensures s.gameOver ==> r == s
  {
    if |keys| == 0 || s.gameOver then s else Run(Step(s, keys[0], rolls[0]), keys[1..], rolls[1..])
  }
}

=== FILE: classic_properties.dfy ===
/** Properties of the simpler variant: the reachable-state invariant, absorption of
    game over, and how the stored `R` direction ends the game. */
module ClassicProperties {

  import opened Options
  import opened Grid
  import opened ClassicGame

  /** The character map and its inverse: each key has exactly one character. */
  lemma KeyMapRoundTrip(c: char, k: Key)
    ensures KeyOf(CharOf(k)) == Some(k)
    ensures KeyOf(c) == Some(k) ==> c == CharOf(k)
  {
  }

  /** A key is refused exactly when it reverses the current direction; `R` is never
      refused, so it always becomes the current direction. */
  lemma KeyAcceptance(s: State, k: Key)
    ensures ApplyKey(s, k).dir == k <==> !IsReverse(s.dir, k)
    ensures ApplyKey(s, R).dir == R
  {
  }

  /** The initial state satisfies the invariant, whatever the buffer held before. */
  lemma InitValid(buffer: seq<Point>, roll: Roll)
    requires |buffer| == MaxSnakeLength
    ensures Valid(Init(buffer, roll))
  {
    var s := Init(buffer, roll);
    forall i | 0 <= i < s.length
      ensures OnGrid(s.cells[i])
    {
      assert s.cells[i] == s.cells[..3][i];
    }
  }

  /** A tick keeps the invariant; in particular the length never exceeds 256. */
  lemma TickPreservesValid(s: State, roll: Roll)
    requires Valid(s)
    ensures Valid(Tick(s, roll))
  {
    if !s.gameOver {
      var head := Candidate(s.cells[0], s.dir);
      if InBounds(head) && !HitsBody(s.cells, s.length, head, 1) {
        var len := if head == s.food && s.length < MaxSnakeLength then s.length + 1 else s.length;
        var food := if head == s.food then SpawnFood(roll) else s.food;
        assert Tick(s, roll) == State(Shifted(s.cells, len, head), len, food, false, s.dir);
        ShiftedBodyOnGrid(s.cells, s.length, len, head);
      }
    }
  }

  /** Every state reachable from a valid state is valid. */
  lemma {:induction false} RunPreservesValid(s: State, keys: seq<Option<Key>>, rolls: seq<Roll>)
    requires Valid(s)
    requires |keys| == |rolls|
    ensures Valid(Run(s, keys, rolls))
    decreases |keys|
  {
    if |keys| > 0 && !s.gameOver {
      var s1 := match keys[0]
        case None => s
        case Some(k) => ApplyKey(s, k);
      TickPreservesValid(s1, rolls[0]);
      RunPreservesValid(Step(s, keys[0], rolls[0]), keys[1..], rolls[1..]);
    }
  }

  /** The loop is left at game over: once an iteration has ended the game, the inputs
      that follow are never consumed, so the final state is the one that ended it. */
  lemma {:induction false} GameOverAbsorbing(s: State, keys: seq<Option<Key>>, rolls: seq<Roll>,
                                             more: seq<Option<Key>>, moreRolls: seq<Roll>)
    requires Shape(s)
    requires |keys| == |rolls| && |more| == |moreRolls|
    requires Run(s, keys, rolls).gameOver
    ensures Run(s, keys + more, rolls + moreRolls) == Run(s, keys, rolls)
    decreases |keys|
  {
    if |keys| > 0 && !s.gameOver {
      var allKeys, allRolls := keys + more, rolls + moreRolls;
      var next := Step(s, keys[0], rolls[0]);
      AppendTail(keys, more);
      AppendTail(rolls, moreRolls);
      assert Run(s, allKeys, allRolls) == Run(next, allKeys[1..], allRolls[1..]);
      GameOverAbsorbing(next, keys[1..], rolls[1..], more, moreRolls);
    }
  }

  /** Splitting the first element off a concatenation. */
  lemma AppendTail<T>(a: seq<T>, b: seq<T>)
    requires |a| > 0
    ensures (a + b)[0] == a[0] && (a + b)[1..] == a[1..] + b
  {
  }

  /** A head leaving the screen at the right edge ends the game. */
  lemma RightWallEndsGame(s: State, roll: Roll)
    requires Shape(s) && !s.gameOver
    requires s.dir == Right && s.cells[0].x == ScreenWidth - BlockSize
    ensures Tick(s, roll).gameOver
    ensures Tick(s, roll).cells == s.cells
  {
  }

  /** With `R` stored as the direction the head does not move. If the head already
      sits on cell 1 the tick ends the game; otherwise a first tick (when the head is
      on no other body cell either) survives and leaves the head on top of cell 1. */
  lemma RKeyStallsHead(s: State, roll: Roll)
    requires Valid(s) && !s.gameOver && s.dir == R
    ensures Candidate(s.cells[0], s.dir) == s.cells[0]
    ensures s.cells[1] == s.cells[0] ==> Tick(s, roll).gameOver
    ensures (forall i :: 1 <= i < s.length ==> s.cells[i] != s.cells[0]) ==>
      !Tick(s, roll).gameOver && Tick(s, roll).cells[1] == Tick(s, roll).cells[0]
  {
    if forall i :: 1 <= i < s.length ==> s.cells[i] != s.cells[0] {
      assert !HitsBody(s.cells, s.length, s.cells[0], 1);
    }
  }

  /** Pressing R during play ends the game within two ticks: the first tick leaves
      the head in place so that cell 1 catches up with it, and the second tick's
      self-collision check then fires. */
  lemma {:induction false} RKeyEndsGameInTwoTicks(s: State, r1: Roll, r2: Roll)
    requires Valid(s) && !s.gameOver
    ensures Tick(Tick(ApplyKey(s, R), r1), r2).gameOver
  {
    var s0 := ApplyKey(s, R);
    var t1 := Tick(s0, r1);
    if !t1.gameOver {
      assert t1.cells[0] == s0.cells[0];
      assert t1.cells[1] == s0.cells[0];
      assert t1.dir == R;
      assert Candidate(t1.cells[0], t1.dir) == t1.cells[1];
      assert HitsBody(t1.cells, t1.length, t1.cells[1], 1);
    }
  }

  /** The first iteration after start-up with an R key: the head stalls onto cell 1.
      If the food happened to spawn on the head, the snake also grows by one. */
  lemma StartupRStalls(buffer: seq<Point>, r0: Roll, r1: Roll)
    requires |buffer| == MaxSnakeLength
    ensures var s1 := Step(Init(buffer, r0), Some(R), r1);
      && !s1.gameOver && s1.dir == R && Shape(s1) && 3 <= s1.length <= 4
      && s1.cells[0] == Point(6, 32) && s1.cells[1] == Point(6, 32) && s1.cells[2] == Point(4, 32)
      && (s1.length == 4 ==> s1.cells[3] == Point(2, 32))
  {
    var s0 := Init(buffer, r0);
    assert s0.cells[0] == Point(6, 32) && s0.cells[1] == Point(4, 32) && s0.cells[2] == Point(2, 32)
      by { assert s0.cells[..3][0] == s0.cells[0] && s0.cells[..3][1] == s0.cells[1] && s0.cells[..3][2] == s0.cells[2]; }
    assert !HitsBody(s0.cells, 3, Point(6, 32), 1);
  }

  /** R does not always end the game: `R` is no movement direction, so the reverse
      filter refuses nothing while it is stored. From the start-up state, R followed
      in the next iteration by a turn Up stalls once and then moves clear of the body,
      wherever the food spawned. */
  lemma RKeyThenTurnSurvives(buffer: seq<Point>, r0: Roll, r1: Roll, r2: Roll)
    requires |buffer| == MaxSnakeLength
    ensures var s1 := Step(Init(buffer, r0), Some(R), r1);
      !s1.gameOver && s1.cells[0] == s1.cells[1] && !Step(s1, Some(Up), r2).gameOver
  {
    StartupRStalls(buffer, r0, r1);
    var s1 := Step(Init(buffer, r0), Some(R), r1);
    var t := ApplyKey(s1, Up);
    assert t.dir == Up && Candidate(t.cells[0], t.dir) == Point(6, 30);
    assert !HitsBody(t.cells, t.length, Point(6, 30), 1);
  }

  /** Because the filter refuses nothing after R, the exact reverse of the direction
      before R is accepted next: heading right, R then Left puts the head on cell 2,
      wherever the food spawned. */
  lemma RKeyThenReverseEndsGame(buffer: seq<Point>, r0: Roll, r1: Roll, r2: Roll)
    requires |buffer| == MaxSnakeLength
    ensures var s1 := Step(Init(buffer, r0), Some(R), r1);
      !s1.gameOver && Step(s1, Some(Left), r2).gameOver
  {
    StartupRStalls(buffer, r0, r1);
    var s1 := Step(Init(buffer, r0), Some(R), r1);
    var t := ApplyKey(s1, Left);
    assert t.dir == Left && Candidate(t.cells[0], t.dir) == t.cells[2];
    assert HitsBody(t.cells, t.length, t.cells[2], 1);
  }
}

=== FILE: enhanced_game.dfy ===
/** The enhanced variant of the game engine (main_enhanced.c) as one sequential
    step function: key handling with the mode state machine, the per-tick move with
    wall and self collision, food effects, and the delay before the next tick. */
module EnhancedGame {

  import opened UInt32
  import opened Options
  import opened Grid
  import opened Ticks
  import opened Food
  import opened Scoring

  /** A key message: four movement directions, `R` (start/restart) and `Pause`. */
  datatype Key = Up | Down | Left | Right | R | Pause {
    predicate IsMove() {
      this == Up || this == Down || this == Left || this == Right
    }
  }

  datatype Mode = Menu | Playing | Paused | GameOver

  /** The shared game record together with the snake task's current direction and session
      start tick. `cells` is the whole fixed-capacity body buffer; the body is its
      first `length` cells, the head at index 0. */
  datatype GameState = GameState(
    cells: seq<Point>,
    length: int,
    food: Food,
    gameOver: bool,
    score: u32,
    highScore: u32,
    level: u32,
    boostEnd: u32,
    slowEnd: u32,
    mode: Mode,
    dir: Key,
    startTime: u32)

  /** One iteration of the simulation loop: the key message received (if any), the
      tick count, and the `rand()` draws for a respawn on expiry and after eating. */
  datatype Input = Input(key: Option<Key>, now: u32, onExpire: Draw, onEat: Draw)

  /** The state after one iteration and the delay (ms) the snake task then sleeps. */
  datatype Cycle = Cycle(state: GameState, delay: u32)

  /** The buffer shape every operation relies on: full capacity, a non-empty body. */
  predicate Shape(s: GameState) {
    |s.cells| == MaxSnakeLength && 1 <= s.length <= MaxSnakeLength
  }

  /** The invariant of every reachable state. */
  predicate Valid(s: GameState) {
    && |s.cells| == MaxSnakeLength
    && 3 <= s.length <= MaxSnakeLength
    && (forall i :: 0 <= i < |s.cells| ==> OnGrid(s.cells[i]))
    && (forall i :: s.length <= i < |s.cells| ==> s.cells[i] == Origin)
    && OnGrid(s.food.pos)
    && s.food.lifetime == LifetimeOf(s.food.kind)
    && s.level == CalculateLevel(s.score)
    && s.score <= s.highScore
    && s.dir.IsMove()
    && (s.mode == GameOver ==> s.gameOver)
  }

  /** The keyboard task's character map; every other character is dropped. */
  function KeyOf(c: char): (k: Option<Key>)
    ensures k.None? <==> c !in {'w', 's', 'a', 'd', 'r', 'p'}
  {
    match c
    case 'w' => Some(Up)
    case 's' => Some(Down)
    case 'a' => Some(Left)
    case 'd' => Some(Right)
    case 'r' => Some(R)
    case 'p' => Some(Pause)
    case _ => None
  }

  /** The character that produces a key. */
  function CharOf(k: Key): char {
    match k
    case Up => 'w'
    case Down => 's'
    case Left => 'a'
    case Right => 'd'
    case R => 'r'
    case Pause => 'p'
  }

  /** The exact reversal of the current direction, which play refuses. */
  predicate IsReverse(cur: Key, k: Key) {
    || (cur == Up && k == Down)
    || (cur == Down && k == Up)
    || (cur == Left && k == Right)
    || (cur == Right && k == Left)
  }

  /** The candidate head: one block along a movement direction; any other value
      leaves the head where it is. */
  function Candidate(head: Point, dir: Key): (p: Point)
    ensures dir.IsMove() ==> OneBlockApart(p, head)
    ensures dir == Up ==> p.y < head.y
    ensures dir == Down ==> p.y > head.y
    ensures dir == Left ==> p.x < head.x
    ensures dir == Right ==> p.x > head.x
    ensures !dir.IsMove() ==> p == head
  {
    match dir
    case Up => Offset(head, 0, -BlockSize)
    case Down => Offset(head, 0, BlockSize)
    case Left => Offset(head, -BlockSize, 0)
    case Right => Offset(head, BlockSize, 0)
    case _ => head
  }

  /** The task's initialisation block, run once on a zeroed static record: length 3
      heading right on the grid-aligned middle row, menu mode, zero score, level 1. */
  function Init(now: u32, d: Draw): (s: GameState)
    ensures |s.cells| == MaxSnakeLength
    ensures s.cells[..3] == [Point(6, 32), Point(4, 32), Point(2, 32)]
    ensures s.length == 3 && s.dir == Right && s.mode == Menu && !s.gameOver
    ensures s.score == 0 && s.highScore == 0 && s.level == 1
    ensures s.boostEnd == 0 && s.slowEnd == 0 && s.startTime == now
    ensures s.food == SpawnFood(d, now)
  {
    var initialLength := 3;
    var row := (ScreenHeight / 2 / BlockSize) * BlockSize;
    GameState(
      seq(MaxSnakeLength, i requires 0 <= i < MaxSnakeLength =>
        if i < initialLength then Point((initialLength - i) * BlockSize, row) else Origin),
      initialLength, SpawnFood(d, now), false, 0, 0, 1, 0, 0, Menu, Right, now)
  }

  /** The key message handling of one loop iteration, by mode:
      Menu: R starts play (and restarts the session clock).
      Playing: Pause pauses, R returns to the menu, any other direction except the
      exact reverse becomes the current direction.
      Paused: Pause resumes, R returns to the menu.
      GameOver: R returns to the menu.
      Every other pair is ignored. Nothing else in the state changes; in particular
      `gameOver` is never cleared. */
  function HandleKey(s: GameState, k: Key, now: u32): (r: GameState)
    ensures s.mode == Menu && k == R ==> r.mode == Playing && r.startTime == now
    ensures s.mode == Playing && k == Pause ==> r.mode == Paused
    ensures s.mode == Playing && k == R ==> r.mode == Menu
    ensures s.mode == Paused && k == Pause ==> r.mode == Playing
    ensures s.mode == Paused && k == R ==> r.mode == Menu
    ensures s.mode == GameOver && k == R ==> r.mode == Menu
    ensures r.mode != s.mode ==> k == R || k == Pause
    ensures s.mode == Playing && k.IsMove() && !IsReverse(s.dir, k) ==> r == s.(dir := k)
    ensures r.dir != s.dir ==> s.mode == Playing && k.IsMove() && !IsReverse(s.dir, k) && r.dir == k
    ensures r.startTime != s.startTime ==> s.mode == Menu && k == R
    ensures r.(mode := s.mode, dir := s.dir, startTime := s.startTime) == s
    ensures ((k != R && k != Pause && s.mode != Playing) || (s.mode == Playing && IsReverse(s.dir, k))
             || (s.mode == Menu && k == Pause) || (s.mode == GameOver && k == Pause)) ==> r == s
  {
    match s.mode
    case Menu =>
      if k == R then s.(mode := Playing, startTime := now) else s
    case Playing =>
      if k == Pause then s.(mode := Paused)
      else if k == R then s.(mode := Menu)
      else if !IsReverse(s.dir, k) then s.(dir := k)
      else s
    case Paused =>
      if k == Pause then s.(mode := Playing)
      else if k == R then s.(mode := Menu)
      else s
    case GameOver =>
      if k == R then s.(mode := Menu) else s
  }

  /** Score multiplier of a food variant. */
  function Multiplier(k: FoodType): (m: nat)
    ensures m == 2 <==> k == Golden
    ensures m == 3 <==> k == Super
    ensures k != Golden && k != Super ==> m == 1
  {
    match k
    case Normal => 1
    case Golden => 2
    case SpeedUp => 1
    case Slow => 1
    case Super => 3
  }

  /** The points one food of variant `kind` earns: its multiple of `calculateScore`.
      Within capacity and the reachable levels the `uint32_t` product never wraps. */
  function FoodGain(length: int, level: u32, kind: FoodType): (gain: u32)
    ensures 3 <= length <= MaxSnakeLength && level <= MaxLevel ==>
      gain == Multiplier(kind) * CalculateScore(length, level) && 10 <= gain <= 3 * MaxScoreDelta
  {
    var base := CalculateScore(length, level);
    match kind
    case Normal => base
    case Golden => Wrap(base * 2)
    case SpeedUp => base
    case Slow => base
    case Super => Wrap(base * 3)
  }

  /** The length after eating: one more cell, two for Super, never beyond capacity. */
  function Grown(length: int, kind: FoodType): (n: int)
    ensures length < MaxSnakeLength ==> n > length
    ensures length <= MaxSnakeLength ==> n <= MaxSnakeLength
    ensures length >= MaxSnakeLength ==> n == length
    ensures kind != Super && length < MaxSnakeLength ==> n == length + 1
    ensures kind == Super && length <= MaxSnakeLength ==>
      n == (if length + 2 <= MaxSnakeLength then length + 2 else MaxSnakeLength)
  {
    if kind == Super then
      (if length < MaxSnakeLength - 1 then length + 2
       else if length < MaxSnakeLength then length + 1
       else length)
    else if length < MaxSnakeLength then length + 1
    else length
  }

  /** `processFoodEffect`: add the variant's multiple of `calculateScore`, grow by one
      (Super: by two) up to capacity, start the speed-boost (5 s) or slow (3 s) effect,
      recompute the level from the new score and raise the high score if beaten. */
  function ProcessFoodEffect(s: GameState, kind: FoodType, now: u32): (r: GameState)
    ensures r.level == CalculateLevel(r.score)
    ensures r.highScore >= r.score && r.highScore >= s.highScore
    ensures r.highScore != s.highScore ==> r.score > s.highScore && r.highScore == r.score
    ensures r.length == Grown(s.length, kind)
    ensures r.score == Wrap(s.score + FoodGain(s.length, s.level, kind))
    ensures kind == SpeedUp ==> r.boostEnd == Wrap(now + 5000)
    ensures kind != SpeedUp ==> r.boostEnd == s.boostEnd
    ensures kind == Slow ==> r.slowEnd == Wrap(now + 3000)
    ensures kind != Slow ==> r.slowEnd == s.slowEnd
    ensures r.(score := s.score, highScore := s.highScore, level := s.level, length := s.length,
               boostEnd := s.boostEnd, slowEnd := s.slowEnd) == s
  {
    var score := Wrap(s.score + FoodGain(s.length, s.level, kind));
    var boostEnd := if kind == SpeedUp then Wrap(now + MsToTicks(5000)) else s.boostEnd;
    var slowEnd := if kind == Slow then Wrap(now + MsToTicks(3000)) else s.slowEnd;
    s.(score := score, length := Grown(s.length, kind), boostEnd := boostEnd, slowEnd := slowEnd,
       level := CalculateLevel(score),
       highScore := if score > s.highScore then score else s.highScore)
  }

  /** One simulation tick. Only while Playing and not over: replace expired food,
      move the candidate head, end the game on a wall or on a body cell 1..length-1
      (leaving the body as it was and the refreshed food in place), otherwise eat if the head reaches the
      food (effect, then a fresh spawn) and shift the body onto the new head. */
  function Tick(s: GameState, now: u32, onExpire: Draw, onEat: Draw): (r: GameState)
    requires Shape(s)
    ensures Shape(r)
    ensures !(s.mode == Playing && !s.gameOver) ==> r == s
    ensures s.mode == Playing && !s.gameOver ==>
      var food := Refresh(s.food, now, onExpire);
      var head := Candidate(s.cells[0], s.dir);
      && (r.gameOver <==> !InBounds(head) || exists i :: 1 <= i < s.length && s.cells[i] == head)
      && (r.gameOver ==> r == s.(food := food, gameOver := true, mode := GameOver))
      && (!r.gameOver ==> r.mode == Playing && r.cells[0] == head)
      && (!r.gameOver ==> forall i :: 1 <= i < r.length ==> r.cells[i] == s.cells[i - 1])
      && (!r.gameOver ==> forall i :: r.length <= i < |r.cells| ==> r.cells[i] == s.cells[i])
      && (!r.gameOver && head != food.pos ==> r == s.(food := food, cells := r.cells))
      && (!r.gameOver && head == food.pos ==>
            r == ProcessFoodEffect(s.(food := food), food.kind, now).(food := SpawnFood(onEat, now), cells := r.cells))
  {
    if !(s.mode == Playing && !s.gameOver) then s
    else
      var s1 := s.(food := Refresh(s.food, now, onExpire));
      var head := Candidate(s1.cells[0], s1.dir);
      if !InBounds(head) || HitsBody(s1.cells, s1.length, head, 1) then
        s1.(gameOver := true, mode := GameOver)
      else Move(s1, head, now, onEat)
  }

  /** The non-colliding half of a tick: eat if the head reaches the food (effect, then
      a fresh spawn), then shift the body onto the new head. */
  function Move(s: GameState, head: Point, now: u32, onEat: Draw): (r: GameState)
    requires Shape(s)
    ensures Shape(r) && r.length >= s.length
    ensures r.cells == Shifted(s.cells, r.length, head)
    ensures head != s.food.pos ==> r == s.(cells := r.cells)
    ensures head == s.food.pos ==>
      r == ProcessFoodEffect(s, s.food.kind, now).(food := SpawnFood(onEat, now), cells := r.cells)
  {
    var s2 := if head == s.food.pos
      then ProcessFoodEffect(s, s.food.kind, now).(food := SpawnFood(onEat, now))
      else s;
    s2.(cells := Shifted(s2.cells, s2.length, head))
  }

  /** One iteration of the simulation loop: handle at most one key message, run the
      tick, and compute the delay from the resulting state. */
  function Step(s: GameState, input: Input): (c: Cycle)
    requires Shape(s)
    ensures Shape(c.state)
    ensures c.state.highScore >= s.highScore
    ensures c.delay == TickDelay(c.state.mode == Playing && !c.state.gameOver, c.state.level,
                                 c.state.boostEnd, c.state.slowEnd, input.now)
    ensures s.gameOver ==>
      (c.state.gameOver && c.state.cells == s.cells && c.state.food == s.food
       && c.state.length == s.length && c.state.score == s.score && c.delay == 100)
  {
    var s1 := match input.key
      case None => s
      case Some(k) => HandleKey(s, k, input.now);
    var s2 := Tick(s1, input.now, input.onExpire, input.onEat);
    Cycle(s2, TickDelay(s2.mode == Playing && !s2.gameOver, s2.level, s2.boostEnd, s2.slowEnd, input.now))
  }

  /** The state after a sequence of loop iterations. */
  function Run(s: GameState, inputs: seq<Input>): (r: GameState)
    requires Shape(s)
    decreases |inputs|
    ensures Shape(r)
    ensures r.highScore >= s.highScore
  {
    if |inputs| == 0 then s else Run(Step(s, inputs[0]).state, inputs[1..])
  }
}

=== FILE: enhanced_properties.dfy ===
/** Properties of the enhanced variant that relate several operations or hold across
    whole runs: the reachable-state invariant, absorption of game over, score
    monotonicity, and the behaviours the code has as written. */
module EnhancedProperties {

  import opened UInt32
  import opened Options
  import opened Grid
  import opened Food
  import opened Scoring
  import opened EnhancedGame

  /** The character map and its inverse: each key has exactly one character. */
  lemma KeyMapRoundTrip(c: char, k: Key)
    ensures KeyOf(CharOf(k)) == Some(k)
    ensures KeyOf(c) == Some(k) ==> c == CharOf(k)
  {
  }

  /** Reversal is symmetric and only relates two movement directions. */
  lemma ReverseSymmetric(a: Key, b: Key)
    ensures IsReverse(a, b) <==> IsReverse(b, a)
    ensures IsReverse(a, b) ==> a.IsMove() && b.IsMove() && a != b
  {
  }

  /** The initial state satisfies the invariant. */
  lemma InitValid(now: u32, d: Draw)
    ensures Valid(Init(now, d))
  {
    var s := Init(now, d);
    forall i | 0 <= i < |s.cells|
      ensures OnGrid(s.cells[i])
    {
      if i < 3 {
        assert s.cells[i] == Point((3 - i) * BlockSize, 32);
      }
    }
  }

  /** Key handling keeps the invariant; in particular the current direction only
      ever holds a movement direction. */
  lemma HandleKeyPreservesValid(s: GameState, k: Key, now: u32)
    requires Valid(s)
    ensures Valid(HandleKey(s, k, now))
    ensures HandleKey(s, k, now).dir.IsMove()
  {
  }

  /** Eating keeps the scoring part of the invariant and does not touch the buffer. */
  lemma ProcessFoodEffectPreservesValid(s: GameState, kind: FoodType, now: u32)
    requires Valid(s)
    ensures var r := ProcessFoodEffect(s, kind, now);
      && r.level == CalculateLevel(r.score) && r.score <= r.highScore
      && 3 <= r.length <= MaxSnakeLength && r.length >= s.length
      && r.cells == s.cells && r.food == s.food && r.dir == s.dir && r.mode == s.mode
  {
  }

  /** The moving half of a tick keeps the invariant when the new head is on the grid. */
  lemma MovePreservesValid(s: GameState, head: Point, now: u32, onEat: Draw)
    requires Valid(s)
    requires OnGrid(head)
    ensures Valid(Move(s, head, now, onEat))
  {
    var r := Move(s, head, now, onEat);
    if head == s.food.pos {
      ProcessFoodEffectPreservesValid(s, s.food.kind, now);
    }
    ShiftedKeepsBuffer(s.cells, s.length, r.length, head);
  }

  /** A tick keeps the invariant. */
  lemma TickPreservesValid(s: GameState, now: u32, onExpire: Draw, onEat: Draw)
    requires Valid(s)
    ensures Valid(Tick(s, now, onExpire, onEat))
  {
    if s.mode == Playing && !s.gameOver {
      var s1 := s.(food := Refresh(s.food, now, onExpire));
      var head := Candidate(s1.cells[0], s1.dir);
      if !InBounds(head) || HitsBody(s1.cells, s1.length, head, 1) {
        CollidingTickPreservesValid(s, now, onExpire, onEat);
      } else {
        MovingTickPreservesValid(s, now, onExpire, onEat);
      }
    }
  }

  /** A tick that ends the game keeps the invariant. */
  lemma CollidingTickPreservesValid(s: GameState, now: u32, onExpire: Draw, onEat: Draw)
    requires Valid(s) && s.mode == Playing && !s.gameOver
    requires var head := Candidate(s.cells[0], s.dir);
      !InBounds(head) || HitsBody(s.cells, s.length, head, 1)
    ensures Valid(Tick(s, now, onExpire, onEat))
  {
    var s1 := s.(food := Refresh(s.food, now, onExpire));
    assert Valid(s1);
    assert Tick(s, now, onExpire, onEat) == s1.(gameOver := true, mode := GameOver);
  }

  /** A tick that moves the snake keeps the invariant. */
  lemma MovingTickPreservesValid(s: GameState, now: u32, onExpire: Draw, onEat: Draw)
    requires Valid(s) && s.mode == Playing && !s.gameOver
    requires var head := Candidate(s.cells[0], s.dir);
      InBounds(head) && !HitsBody(s.cells, s.length, head, 1)
    ensures Valid(Tick(s, now, onExpire, onEat))
  {
    var s1 := s.(food := Refresh(s.food, now, onExpire));
    assert Valid(s1);
    var head := Candidate(s1.cells[0], s1.dir);
    assert Tick(s, now, onExpire, onEat) == Move(s1, head, now, onEat);
    MovePreservesValid(s1, head, now, onEat);
  }

  /** One loop iteration keeps the invariant. */
  lemma StepPreservesValid(s: GameState, input: Input)
    requires Valid(s)
    ensures Valid(Step(s, input).state)
  {
    var s1 := match input.key
      case None => s
      case Some(k) => HandleKey(s, k, input.now);
    if input.key.Some? {
      HandleKeyPreservesValid(s, input.key.value, input.now);
    }
    TickPreservesValid(s1, input.now, input.onExpire, input.onEat);
  }

  /** Every state reachable from a valid state satisfies the invariant: in particular
      3 <= length <= 256, the food is on the grid and the high score is at least the
      current score. */
  lemma {:induction false} RunPreservesValid(s: GameState, inputs: seq<Input>)
    requires Valid(s)
    ensures Valid(Run(s, inputs))
    decreases |inputs|
  {
    if |inputs| > 0 {
      StepPreservesValid(s, inputs[0]);
      RunPreservesValid(Step(s, inputs[0]).state, inputs[1..]);
    }
  }

  /** Once the game is over nothing moves again: no key sequence and no number of
      ticks changes the body, the food, the length or the score, and `gameOver`
      stays set, because only the snake task's start clears it. */
  lemma {:induction false} GameOverAbsorbing(s: GameState, inputs: seq<Input>)
    requires Shape(s)
    requires s.gameOver
    ensures var r := Run(s, inputs);
      r.gameOver && r.cells == s.cells && r.food == s.food && r.length == s.length && r.score == s.score
    decreases |inputs|
  {
    if |inputs| > 0 {
      GameOverAbsorbing(Step(s, inputs[0]).state, inputs[1..]);
    }
  }

  /** Restarting after a game over reaches Playing mode by R, R, but the tick guard
      still sees `gameOver`, so the game never ticks again and the loop sleeps the
      idle 100 ms. */
  lemma RestartAfterGameOverFreezes(s: GameState, t1: u32, t2: u32, input: Input)
    requires Valid(s)
    requires s.mode == GameOver
    ensures var p := HandleKey(HandleKey(s, R, t1), R, t2);
      && p.mode == Playing && p.gameOver
      && Tick(p, input.now, input.onExpire, input.onEat) == p
      && (input.key == None ==> Step(p, input) == Cycle(p, 100))
  {
  }

  /** Pausing and resuming restores the playing state exactly. */
  lemma PauseRoundTrip(s: GameState, t1: u32, t2: u32)
    requires s.mode == Playing
    ensures HandleKey(s, Pause, t1).mode == Paused
    ensures HandleKey(HandleKey(s, Pause, t1), Pause, t2) == s
  {
  }

  /** While paused, movement keys are ignored, however many arrive. */
  lemma PausedIgnoresMoves(s: GameState, k: Key, now: u32)
    requires s.mode == Paused && k.IsMove()
    ensures HandleKey(s, k, now) == s
  {
  }

  /** A direct reversal is refused: heading up, a Down message leaves the snake
      heading up and the next tick moves the head one block up. */
  lemma ReversalRefused(s: GameState, now: u32, onExpire: Draw, onEat: Draw)
    requires Valid(s) && s.mode == Playing && !s.gameOver && s.dir == Up
    ensures HandleKey(s, Down, now) == s
    ensures var r := Tick(s, now, onExpire, onEat);
      !r.gameOver ==> r.cells[0] == Point(s.cells[0].x, s.cells[0].y - BlockSize)
  {
  }

  /** A head leaving the right edge ends the game and leaves the body in place. */
  lemma RightWallEndsGame(s: GameState, now: u32, onExpire: Draw, onEat: Draw)
    requires Valid(s) && s.mode == Playing && !s.gameOver
    requires s.dir == Right && s.cells[0].x == ScreenWidth - BlockSize
    ensures var r := Tick(s, now, onExpire, onEat);
      r.gameOver && r.mode == GameOver && r.cells == s.cells
  {
  }

  /** The score never decreases in one iteration while far enough from the `uint32_t`
      limit that the addition cannot wrap, and strictly increases when food is eaten. */
  lemma ScoreNeverDecreases(s: GameState, input: Input)
    requires Valid(s)
    requires s.score + 3 * MaxScoreDelta < Modulus
    ensures Step(s, input).state.score >= s.score
    ensures Step(s, input).state.length > s.length ==> Step(s, input).state.score > s.score
  {
    var s1 := match input.key
      case None => s
      case Some(k) => HandleKey(s, k, input.now);
    if input.key.Some? {
      HandleKeyPreservesValid(s, input.key.value, input.now);
    }
    TickNeverLowersScore(s1, input.now, input.onExpire, input.onEat);
  }

  /** A tick never lowers the score away from the uint32 limit, and a tick that
      grows the snake raises it. */
  lemma TickNeverLowersScore(s: GameState, now: u32, onExpire: Draw, onEat: Draw)
    requires Valid(s)
    requires s.score + 3 * MaxScoreDelta < Modulus
    ensures Tick(s, now, onExpire, onEat).score >= s.score
    ensures Tick(s, now, onExpire, onEat).length > s.length ==> Tick(s, now, onExpire, onEat).score > s.score
  {
    var r := Tick(s, now, onExpire, onEat);
    if s.mode == Playing && !s.gameOver && !r.gameOver {
      var food := Refresh(s.food, now, onExpire);
      if Candidate(s.cells[0], s.dir) == food.pos {
        assert s.level <= MaxLevel;
        assert FoodGain(s.length, s.level, food.kind) <= 3 * MaxScoreDelta;
      }
    }
  }

  /** Eating a Golden food at length 5 and level 1 earns (10 + 2*5 + 1*2) * 2 = 44
      points and one cell. */
  lemma GoldenScenario(s: GameState, now: u32)
    requires s.length == 5 && s.level == 1
    ensures FoodGain(5, 1, Golden) == 44
    ensures ProcessFoodEffect(s, Golden, now).length == 6
    ensures s.score + 44 < Modulus ==> ProcessFoodEffect(s, Golden, now).score == s.score + 44
  {
    assert CalculateScore(5, 1) == 22;
    assert Multiplier(Golden) == 2;
  }

  /** The food that takes the score across 100 raises the level in the same tick;
      with no speed or slow effect running, the delay for the new level is 185 ms. */
  lemma LevelUpScenario(s: GameState, now: u32)
    requires Valid(s) && s.score == 90 && s.length == 3
    ensures var r := ProcessFoodEffect(s, Normal, now);
      r.score == 102 && r.level == 2 && TickDelay(true, r.level, 0, 0, now) == 185
  {
  }

  /** Super food grows the body by two, but the shift copies buffer cell `length`,
      which the snake task has never written, into the new last cell: for one tick the
      tail sits at the zero cell (0, 0) instead of repeating the old tail. */
  lemma SuperGrowthExposesUnusedCell(s: GameState, now: u32, onExpire: Draw, onEat: Draw)
    requires Valid(s) && s.mode == Playing && !s.gameOver
    requires s.length <= MaxSnakeLength - 2
    requires var food := Refresh(s.food, now, onExpire);
      food.kind == Super && Candidate(s.cells[0], s.dir) == food.pos
    requires var r := Tick(s, now, onExpire, onEat); !r.gameOver
    ensures var r := Tick(s, now, onExpire, onEat);
      r.length == s.length + 2 && r.cells[s.length] == s.cells[s.length - 1] && r.cells[s.length + 1] == Origin
  {
    var r := Tick(s, now, onExpire, onEat);
    assert r.cells[s.length + 1] == s.cells[s.length];
  }
}

=== FILE: food.dfy ===
/** Food items of the enhanced variant: position, variant, spawn time and lifetime,
    the weighted variant choice and the expiry test. */
module Food {

  import opened UInt32
  import opened Grid
  import opened Ticks

  datatype FoodType = Normal | Golden | SpeedUp | Slow | Super

  /** `spawnTime` is a scheduler tick count; `lifetime` is in milliseconds, 0 meaning "never expires". */
  datatype Food = Food(pos: Point, kind: FoodType, spawnTime: u32, lifetime: u32)

  /** The three `rand()` results one food spawn consumes, in call order:
      column, row, variant roll. `rand()` never returns a negative value. */
  datatype Draw = Draw(rx: nat, ry: nat, rv: nat)

  /** The variant selected by `rand() % 100`, by cumulative weight
      Normal 60, Golden 15, SpeedUp 10, Slow 10, Super 5. */
  function KindOf(roll: nat): (k: FoodType)
    requires roll < 100
    ensures k == Normal <==> roll < 60
    ensures k == Golden <==> 60 <= roll < 75
    ensures k == SpeedUp <==> 75 <= roll < 85
    ensures k == Slow <==> 85 <= roll < 95
    ensures k == Super <==> 95 <= roll
  {
    if roll < 60 then Normal
    else if roll < 75 then Golden
    else if roll < 85 then SpeedUp
    else if roll < 95 then Slow
    else Super
  }

  /** Milliseconds a variant stays on the field; Normal food stays until eaten. */
  function LifetimeOf(k: FoodType): (ms: u32)
    ensures ms == 0 <==> k == Normal
    ensures k != Normal ==> 5000 <= ms <= 10000
  {
    match k
    case Normal => 0
    case Golden => 8000
    case SpeedUp => 6000
    case Slow => 5000
    case Super => 10000
  }

  /** `spawnFood`: a grid-aligned on-screen position, a weighted variant with its
      lifetime, stamped with the current tick count. */
  function SpawnFood(d: Draw, now: u32): (f: Food)
    ensures OnGrid(f.pos)
    ensures f.pos == SpawnPosition(d.rx, d.ry)
    ensures f.kind == KindOf(d.rv % 100)
    ensures f.lifetime == LifetimeOf(f.kind)
    ensures f.spawnTime == now
    ensures f.kind == Normal ==> f.lifetime == 0
    ensures f.kind == Golden ==> f.lifetime == 8000
    ensures f.kind == SpeedUp ==> f.lifetime == 6000
    ensures f.kind == Slow ==> f.lifetime == 5000
    ensures f.kind == Super ==> f.lifetime == 10000
  {
    var kind := KindOf(d.rv % 100);
    Food(SpawnPosition(d.rx, d.ry), kind, now, LifetimeOf(kind))
  }

  /** Milliseconds since the food spawned, in unsigned tick arithmetic
      (correct across one wrap of the tick counter). */
  function ElapsedMs(f: Food, now: u32): u32 {
    Wrap(Wrap(now - f.spawnTime) * TickPeriodMs)
  }

  /** `isFoodExpired`: Normal food (lifetime 0) never expires; other food expires
      once its lifetime has elapsed. */
  function IsFoodExpired(f: Food, now: u32): (expired: bool)
    ensures f.lifetime == 0 ==> !expired
    ensures f.lifetime != 0 ==> (expired <==> ElapsedMs(f, now) >= f.lifetime)
  {
    if f.lifetime == 0 then false else ElapsedMs(f, now) >= f.lifetime
  }

  /** The first step of a playing tick: an expired item is replaced by a fresh spawn.
      Afterwards the food on the field is live, and it keeps the food invariant
      (on the grid, lifetime matching the variant). */
  function Refresh(f: Food, now: u32, d: Draw): (g: Food)
    ensures IsFoodExpired(f, now) ==> g == SpawnFood(d, now)
    ensures !IsFoodExpired(f, now) ==> g == f
    ensures !IsFoodExpired(g, now)
    ensures OnGrid(f.pos) ==> OnGrid(g.pos)
    ensures f.lifetime == LifetimeOf(f.kind) ==> g.lifetime == LifetimeOf(g.kind)
  {
    if IsFoodExpired(f, now) then SpawnFood(d, now) else f
  }

  /** A freshly spawned item expires exactly `lifetime` ms after its spawn tick, even
      when the tick counter wraps in between; Normal food never expires. */
  lemma ExpiryTiming(d: Draw, t: u32, k: u32)
    ensures var f := SpawnFood(d, t);
      IsFoodExpired(f, Wrap(t + k)) <==> (f.kind != Normal && k >= f.lifetime)
  {
    ElapsedSinceSpawn(SpawnFood(d, t), k);
  }

  /** `k` ticks after the spawn tick, exactly `k` ms have elapsed, across counter wrap. */
  lemma ElapsedSinceSpawn(f: Food, k: u32)
    ensures ElapsedMs(f, Wrap(f.spawnTime + k)) == k
  {
    WrapSubAdd(f.spawnTime, k);
    assert TickPeriodMs == 1;
  }

  /** The number of rolls in [lo, hi) that select variant `k`. */
  function CountKind(k: FoodType, lo: nat, hi: nat): nat
    requires hi <= 100
    decreases hi - lo
  {
    if lo >= hi then 0 else (if KindOf(lo) == k then 1 else 0) + CountKind(k, lo + 1, hi)
  }

  /** The intended share (in percent) of each variant. */
  function Weight(k: FoodType): nat {
    match k
    case Normal => 60
    case Golden => 15
    case SpeedUp => 10
    case Slow => 10
    case Super => 5
  }

  /** Counting over [lo, hi) is counting over [lo, mid) and then [mid, hi). */
  lemma {:induction false} CountSplit(k: FoodType, lo: nat, mid: nat, hi: nat)
    requires lo <= mid <= hi <= 100
    ensures CountKind(k, lo, hi) == CountKind(k, lo, mid) + CountKind(k, mid, hi)
    decreases mid - lo
  {
    if lo < mid {
      CountSplit(k, lo + 1, mid, hi);
    }
  }

  /** The band of roll values [BandStart(k), BandEnd(k)) that selects variant `k`. */
  function BandStart(k: FoodType): nat {
    match k
    case Normal => 0
    case Golden => 60
    case SpeedUp => 75
    case Slow => 85
    case Super => 95
  }

  function BandEnd(k: FoodType): nat {
    match k
    case Normal => 60
    case Golden => 75
    case SpeedUp => 85
    case Slow => 95
    case Super => 100
  }

  /** A roll selects `k` exactly when it lies in the band of `k`. */
  lemma KindBand(roll: nat, k: FoodType)
    requires roll < 100
    ensures KindOf(roll) == k <==> BandStart(k) <= roll < BandEnd(k)
  {
  }

  /** A range in which every roll selects `k` counts every roll. */
  lemma {:induction false} CountAll(k: FoodType, lo: nat, hi: nat)
    requires lo <= hi <= 100
    requires forall r :: lo <= r < hi ==> KindOf(r) == k
    ensures CountKind(k, lo, hi) == hi - lo
    decreases hi - lo
  {
    if lo < hi {
      CountAll(k, lo + 1, hi);
    }
  }

  /** A range in which no roll selects `k` counts nothing. */
  lemma {:induction false} CountNone(k: FoodType, lo: nat, hi: nat)
    requires lo <= hi <= 100
    requires forall r :: lo <= r < hi ==> KindOf(r) != k
    ensures CountKind(k, lo, hi) == 0
    decreases hi - lo
  {
    if lo < hi {
      CountNone(k, lo + 1, hi);
    }
  }

  /** Of the 100 values of `rand() % 100`, exactly Weight(k) select variant k:
      Normal 60, Golden 15, SpeedUp 10, Slow 10, Super 5. */
  lemma VariantWeights(k: FoodType)
    ensures CountKind(k, 0, 100) == Weight(k)
  {
    var lo, hi := BandStart(k), BandEnd(k);
    InsideBand(k);
    OutsideBand(k, 0, lo);
    OutsideBand(k, hi, 100);
    CountSplit(k, 0, lo, 100);
    CountSplit(k, lo, hi, 100);
  }

  /** No roll in a range disjoint from the band of `k` selects `k`. */
  lemma OutsideBand(k: FoodType, lo: nat, hi: nat)
    requires lo <= hi <= 100
    requires hi <= BandStart(k) || BandEnd(k) <= lo
    ensures CountKind(k, lo, hi) == 0
  {
    forall r | lo <= r < hi
      ensures KindOf(r) != k
    {
      KindBand(r, k);
    }
    CountNone(k, lo, hi);
  }

  /** Every roll in the band of `k` selects `k`. */
  lemma InsideBand(k: FoodType)
    ensures BandStart(k) <= BandEnd(k) <= 100
    ensures BandEnd(k) - BandStart(k) == Weight(k)
    ensures CountKind(k, BandStart(k), BandEnd(k)) == Weight(k)
  {
    forall r | BandStart(k) <= r < BandEnd(k)
      ensures KindOf(r) == k
    {
      KindBand(r, k);
    }
    CountAll(k, BandStart(k), BandEnd(k));
  }
}

=== FILE: grid.dfy ===
/** The playing field and the snake's body buffer, shared by both game variants.
    Coordinates are pixels; one snake cell or food item occupies a BlockSize square
    whose corner is a multiple of BlockSize. */
module Grid {

  const ScreenWidth: int := 128
  const ScreenHeight: int := 64
  const BlockSize: int := 2
  /** Capacity of the body buffer `snake[MAX_SNAKE_LENGTH]`. */
  const MaxSnakeLength: int := 256

  datatype Point = Point(x: int, y: int)

  /** The value of a never-written cell of the zero-initialised static buffer. */
  const Origin: Point := Point(0, 0)

  predicate InBounds(p: Point) {
    0 <= p.x < ScreenWidth && 0 <= p.y < ScreenHeight
  }

  predicate Aligned(p: Point) {
    p.x % BlockSize == 0 && p.y % BlockSize == 0
  }

  /** A cell the snake or the food may legitimately occupy. */
  predicate OnGrid(p: Point) {
    InBounds(p) && Aligned(p)
  }

  /** Two cells one block apart horizontally or vertically. */
  predicate OneBlockApart(p: Point, q: Point) {
    || (p.x == q.x && (p.y - q.y == BlockSize || q.y - p.y == BlockSize))
    || (p.y == q.y && (p.x - q.x == BlockSize || q.x - p.x == BlockSize))
  }

  function Offset(p: Point, dx: int, dy: int): Point {
    Point(p.x + dx, p.y + dy)
  }

  /** The food position chosen from two `rand()` results (both non-negative):
      a uniformly indexed column and row, scaled to pixels. */
  function SpawnPosition(rx: nat, ry: nat): (p: Point)
    ensures OnGrid(p)
  {
    Point((rx % (ScreenWidth / BlockSize)) * BlockSize, (ry % (ScreenHeight / BlockSize)) * BlockSize)
  }

  /** Every cell of the grid is a possible spawn position: the column/row indices
      of the cell itself produce it. */
  lemma SpawnCoversGrid(p: Point)
    requires OnGrid(p)
    ensures p.x / BlockSize < ScreenWidth / BlockSize && p.y / BlockSize < ScreenHeight / BlockSize
    ensures SpawnPosition(p.x / BlockSize, p.y / BlockSize) == p
  {
    var cx := p.x / BlockSize;
    var cy := p.y / BlockSize;
    assert p.x == cx * BlockSize;
    assert p.y == cy * BlockSize;
    assert cx % (ScreenWidth / BlockSize) == cx;
    assert cy % (ScreenHeight / BlockSize) == cy;
  }

  /** The self-collision scan: does `p` equal some buffer cell at index `from`..`len-1`?
      The source's loop starts at index 1, skipping the current head. */
  function HitsBody(cells: seq<Point>, len: int, p: Point, from: nat): (hit: bool)
    requires len <= |cells|
    decreases len - from
    ensures hit <==> exists i :: from <= i < len && cells[i] == p
  {
    if from >= len then false
    else if cells[from] == p then true
    else HitsBody(cells, len, p, from + 1)
  }

  /** The body after one move: cell i (1 <= i < len) takes the old cell i-1, cell 0
      takes the new head, and the rest of the buffer is untouched. `len` is the
      length after any growth this tick, so a grown cell takes the old cell len-2. */
  function Shifted(cells: seq<Point>, len: int, head: Point): seq<Point>
    requires 1 <= len <= |cells|
  {
    seq(|cells|, i requires 0 <= i < |cells| =>
      if i == 0 then head else if i < len then cells[i - 1] else cells[i])
  }

  /** The source's in-place shift: copy `snake[i] = snake[i-1]` for i from len-1
      down to 1, then write the head. Descending order reads every predecessor
      before it is overwritten, so the result is exactly `Shifted`. */
  method ShiftBody(cells: seq<Point>, len: int, head: Point) returns (out: seq<Point>)
    requires 1 <= len <= |cells|
    ensures |out| == |cells|
    ensures out[0] == head
    ensures forall i :: 1 <= i < len ==> out[i] == cells[i - 1]
    ensures forall i :: len <= i < |cells| ==> out[i] == cells[i]
    ensures out == Shifted(cells, len, head)
  {
    out := cells;
    var i := len - 1;
    while i > 0
      invariant 0 <= i <= len - 1
      invariant |out| == |cells|
      invariant forall j :: 0 <= j <= i ==> out[j] == cells[j]
      invariant forall j :: i < j < len ==> out[j] == cells[j - 1]
      invariant forall j :: len <= j < |cells| ==> out[j] == cells[j]
    {
      out := out[i := out[i - 1]];
      i := i - 1;
    }
    out := out[0 := head];
  }

  /** Shifting onto an on-grid head keeps every buffer cell on the grid, and cells
      beyond the (possibly grown) length keep whatever they held. */
  lemma ShiftedKeepsBuffer(cells: seq<Point>, oldLen: int, len: int, head: Point)
    requires 1 <= oldLen <= len <= |cells|
    requires forall i :: 0 <= i < |cells| ==> OnGrid(cells[i])
    requires forall i :: oldLen <= i < |cells| ==> cells[i] == Origin
    requires OnGrid(head)
    ensures forall i :: 0 <= i < |cells| ==> OnGrid(Shifted(cells, len, head)[i])
    ensures forall i :: len <= i < |cells| ==> Shifted(cells, len, head)[i] == Origin
  {
  }

  /** Shifting onto an on-grid head, growing by at most one cell, keeps the live body
      on the grid. */
  lemma ShiftedBodyOnGrid(cells: seq<Point>, oldLen: int, len: int, head: Point)
    requires 1 <= oldLen <= len <= |cells| && len <= oldLen + 1
    requires forall i :: 0 <= i < oldLen ==> OnGrid(cells[i])
    requires OnGrid(head)
    ensures forall i :: 0 <= i < len ==> OnGrid(Shifted(cells, len, head)[i])
  {
  }
}

=== FILE: options.dfy ===
/** Optional values: a key press that may be absent, a character that may map to no key. */
module Options {

  datatype Option<+T> = None | Some(value: T)
}

=== FILE: scoring.dfy ===
/** Scoring, levelling and the tick-delay curve of the enhanced variant. */
module Scoring {

  import opened UInt32
  import opened Grid
  import opened Ticks

  /** The largest level a `uint32_t` score can produce. */
  const MaxLevel: int := 0xFFFF_FFFF / 100 + 1

  /** The largest single `calculateScore` value for a snake within capacity. */
  const MaxScoreDelta: int := 10 + (MaxSnakeLength - 3) * 5 + MaxLevel * 2

  /** `calculateScore`: base 10, plus 5 per cell beyond the initial 3, plus 2 per level,
      stored as `uint32_t`. */
  function CalculateScore(length: int, level: u32): (r: u32)
    ensures 3 <= length <= MaxSnakeLength && level <= MaxLevel ==>
      r == 10 + (length - 3) * 5 + level * 2 && 10 <= r <= MaxScoreDelta
  {
    Wrap(10 + (length - 3) * 5 + level * 2)
  }

  /** `calculateLevel`: one level per full 100 points, starting at level 1. */
  function CalculateLevel(score: u32): (level: u32)
    ensures 1 <= level <= MaxLevel
    ensures (level - 1) * 100 <= score < level * 100
  {
    score / 100 + 1
  }

  /** A larger score never yields a lower level. */
  lemma LevelMonotone(a: u32, b: u32)
    requires a <= b
    ensures CalculateLevel(a) <= CalculateLevel(b)
  {
  }

  /** A longer snake or a higher level earns strictly more per food. */
  lemma ScoreMonotone(len1: int, lvl1: u32, len2: int, lvl2: u32)
    requires 3 <= len1 <= len2 <= MaxSnakeLength
    requires lvl1 <= lvl2 <= MaxLevel
    ensures CalculateScore(len1, lvl1) <= CalculateScore(len2, lvl2)
    ensures len1 < len2 || lvl1 < lvl2 ==> CalculateScore(len1, lvl1) < CalculateScore(len2, lvl2)
  {
  }

  /** The base tick delay as written: `200 - (level-1)*15` is evaluated in `uint32_t`,
      then raised to 50 if below it. The subtraction wraps from level 15 on. */
  function BaseDelay(level: u32): (ms: u32)
    ensures ms >= 50
    ensures 1 <= level <= 14 ==> 50 <= ms <= 200
    ensures 1 <= level <= 10 ==> ms == 200 - (level - 1) * 15
    ensures 11 <= level <= 14 ==> ms == 50
  {
    var raw := Wrap(200 - Wrap((level - 1) * 15));
    if raw < 50 then 50 else raw
  }

  /** From level 15 up to the highest reachable level the wrapped subtraction turns
      the fastest speed into a delay of billions of milliseconds: the game freezes.
      The sleep itself goes through `pdMS_TO_TICKS`, whose own 32-bit product wraps
      again: at level 15 the task sleeps 4294957 ticks, about 72 minutes at 1 kHz. */
  lemma BaseDelayWrapsFromLevel15(level: u32)
    requires 15 <= level <= MaxLevel
    ensures BaseDelay(level) == Modulus + 200 - (level - 1) * 15
    ensures BaseDelay(level) > 3_000_000_000
  {
    assert 0 <= (level - 1) * 15 < Modulus;
  }

  /** What the task sleeps at level 15 with no effect running: the wrapped delay in
      ticks, far beyond the 50 ms fastest speed. */
  lemma Level15SleepTicks()
    ensures BaseDelay(15) == 4294967286
    ensures MsToTicks(BaseDelay(15)) == 4294957
    ensures MsToTicks(BaseDelay(15)) > 1000 * 60 * 60
  {
    BaseDelayWrapsFromLevel15(15);
  }

  /** The evidently intended base delay: signed arithmetic, floored at 50 ms. */
  function IntendedBaseDelay(level: u32): (ms: int)
    requires level >= 1
    ensures 50 <= ms <= 200
    ensures ms == 50 <==> level >= 11
  {
    var raw := 200 - (level - 1) * 15;
    if raw < 50 then 50 else raw
  }

  /** The intended curve only speeds the game up as the level rises, and agrees with
      the code as written through level 14. */
  lemma IntendedBaseDelayProperties(a: u32, b: u32)
    requires 1 <= a <= b
    ensures IntendedBaseDelay(b) <= IntendedBaseDelay(a)
    ensures a <= 14 ==> IntendedBaseDelay(a) == BaseDelay(a)
  {
  }

  /** The delay before the next loop iteration, in ms. Outside active play it is 100.
      During play the base delay is halved while a speed boost is running and then
      doubled (in `uint32_t`) while a slow effect is running; both apply in that order
      when both are running. An effect runs while its end tick is after `now`. */
  function TickDelay(active: bool, level: u32, boostEnd: u32, slowEnd: u32, now: u32): (ms: u32)
    ensures !active ==> ms == 100
    ensures active && boostEnd <= now && slowEnd <= now ==> ms == BaseDelay(level)
    ensures active && boostEnd > now && slowEnd <= now ==> ms == BaseDelay(level) / 2
    ensures active && boostEnd <= now && slowEnd > now ==> ms == Wrap(BaseDelay(level) * 2)
    ensures active && boostEnd > now && slowEnd > now ==> ms == (BaseDelay(level) / 2) * 2
    ensures active && 1 <= level <= 14 ==> 25 <= ms <= 400
    ensures active && boostEnd > now && slowEnd <= now ==> ms <= BaseDelay(level)
    ensures active && 1 <= level <= 14 && slowEnd > now && boostEnd <= now ==> ms >= BaseDelay(level)
  {
    if !active then 100
    else
      var base := BaseDelay(level);
      var boosted := if boostEnd > now then base / 2 else base;
      if slowEnd > now then Wrap(boosted * 2) else boosted
  }

  /** Through level 14 the delay of an active game lies between 25 ms (boost only at
      the 50 ms floor) and 400 ms (slow only at level 1). */
  lemma TickDelayBounds(level: u32, boostEnd: u32, slowEnd: u32, now: u32)
    requires 1 <= level <= 14
    ensures 25 <= TickDelay(true, level, boostEnd, slowEnd, now) <= 400
  {
  }
}

=== FILE: ticks.dfy ===
/** Scheduler tick arithmetic. The FreeRTOS configuration header is not part of this
    model; a 1 kHz tick is assumed, so one tick is one millisecond. */
module Ticks {

  import opened UInt32

  /** `configTICK_RATE_HZ`. */
  const TickRateHz: int := 1000

  /** `portTICK_PERIOD_MS`. */
  const TickPeriodMs: int := 1000 / TickRateHz

  /** `pdMS_TO_TICKS`: milliseconds to ticks in tick-count arithmetic. */
  function MsToTicks(ms: u32): u32 {
    Wrap(ms * TickRateHz) / 1000
  }

  /** `pdMS_TO_TICKS` computes `ms * configTICK_RATE_HZ` in 32 bits, so at 1 kHz it maps
      milliseconds to ticks one to one exactly up to 4294967 ms; beyond that the
      product wraps and the tick count falls short. */
  lemma MsToTicksOneToOne(ms: u32)
    ensures ms <= 4294967 <==> MsToTicks(ms) == ms
  {
    if ms > 4294967 {
      assert ms * TickRateHz >= Modulus;
      assert MsToTicks(ms) < ms;
    }
  }
}

=== FILE: uint32.dfy ===
/** Unsigned 32-bit machine arithmetic.
    The C sources keep scores, levels, tick counts and delays in `uint32_t`;
    every such operation wraps modulo 2^32, which `Wrap` states explicitly. */
module UInt32 {

  const Modulus: int := 0x1_0000_0000

  type u32 = x: int | 0 <= x < 0x1_0000_0000

  /** The value a C `uint32_t` holds after storing the mathematical integer `x`. */
  function Wrap(x: int): (r: u32)
    ensures 0 <= x < Modulus ==> r == x
    ensures (x - r) % Modulus == 0
  {
    x % Modulus
  }

  /** Unsigned subtraction undoes unsigned addition, however far the sum wrapped. */
  lemma WrapSubAdd(t: u32, k: u32)
    ensures Wrap(Wrap(t + k) - t) == k
  {
    if t + k < Modulus {
      assert Wrap(t + k) == t + k;
    } else {
      assert Wrap(t + k) == t + k - Modulus;
      assert Wrap(t + k) - t == k - Modulus;
    }
  }
}
